=== FILE: README.md ===
# Identity matching core of a face-recognition project

This project models the decision logic of a small face-recognition system.
The system keeps a reference database from identity names to face
embeddings and answers two questions about the newest image in a query
folder:

- who is it (one-to-many recognition);
- is it this person (one-to-one verification).

Images, files and the neural encoder are replaced by abstract inputs:

- a directory listing is a sequence of file names;
- the query folder's listing pairs each name with its modification time;
- `os.path.exists` is a boolean;
- the encoder (`img_to_encoding`) is a function from an image path to an embedding;
- the Euclidean distance is a function from two embeddings to a real.

Modules, one per concern of the source:

- `Outcomes` (`outcomes.dfy`): `Option`, the raised errors, `Result`.
- `FileNames` (`file_names.dfy`): the image-extension filter, `os.path.splitext` and `os.path.join` for listing names.
- `ReferenceDatabase` (`reference_database.dfy`): the database as an insertion-ordered association list with unique names, which is how a Python dict behaves. It holds the folder build, add and remove.
- `QuerySelection` (`query_selection.dfy`): the choice of the query image that recognition and verification share.
- `Recognition` (`recognition.dfy`): `who_is_it`.
- `Verification` (`verification.dfy`): `verify`.

Every value is immutable, so no operation can change a database it only
reads. Recognition and verification never return a new database.

The model keeps these behaviours of the code, where a cleaner design might have chosen otherwise:

- Removing a person returns the database, not a boolean saying whether the name was there.
- Ties in recognition go to the entry that comes first in the dict's insertion order, not to, say, the smallest name.
- In the folder build the listing order matters. When two image files share a stem (`a.jpg`, `a.png`), the later one supplies the embedding.
- Verification reports a claimed identity that is not a key as Python's `KeyError`. It has no separate "unknown identity" error.
- The code checks no embedding dimension and no normalisation.

## Model

| member | source | states |
|---|---|---|
| FileNames.IsImageName | utils/database.py:18 | The image filter shared by the folder build and both query selections (also utils/recognition.py:20 and utils/verification.py:21): the lower-cased name ends in `.jpg`, `.png` or `.jpeg`. Its meaning is stated by FileNames.ImageNameIgnoresCase |
| FileNames.ImageNameIgnoresCase | utils/database.py:18 | For every name, the filter accepts it exactly when its last characters, each lower-cased on its own, spell `.jpg`, `.png` or `.jpeg`. This is checked against a character-by-character definition, independent of the lower-cased string |
| FileNames.ImageNameExamples | utils/database.py:18 | Extensions are matched without regard to case: `a.b.JPG` and `.png` are accepted |
| FileNames.ImageNameRejects | utils/database.py:18 | Other extensions, and an accepted one that is not at the very end of the name, are refused: `notes.txt` and `x.jpg.bak` |
| FileNames.Stem | utils/database.py:19 | The key is a prefix of the file name. When shorter, exactly one final `.ext` containing no other dot was removed, and something other than dots precedes it. When nothing is removed, every dot in the name has only dots before it |
| FileNames.StemDropsExtension | utils/database.py:19 | For any base that is not all dots and any extension starting with its only dot, the key of `base + ext` is `base` |
| FileNames.StemExamples | utils/database.py:19 | Only the last extension goes: `a.b.JPG` gives `a.b` and `a..jpg` gives `a.` |
| FileNames.StemKeepsWhole | utils/database.py:19 | Names whose dots all lead (`.jpg`, `..png`) and names without a dot (`README`) are kept whole |
| FileNames.JoinPath | utils/database.py:20 | The path is the folder, then the file name, with exactly one '/' inserted between them, unless the folder is empty or already ends in '/'. The same join builds the query path at utils/recognition.py:26 |
| ReferenceDatabase.Assign | utils/database.py:42 | `database[name] = e`: names stay unique; `name` maps to `e`; every other name maps to what it did; an existing name keeps its position and a new one is appended |
| ReferenceDatabase.Delete | utils/database.py:59 | `del database[name]` on a present name: the name is gone, other lookups are unchanged, and the result is the database with exactly that one entry cut out |
| ReferenceDatabase.AcceptFile | utils/database.py:18-21 | One pass of the loop body: a file the filter accepts is assigned under its key; names stay unique |
| ReferenceDatabase.Build | utils/database.py:16-21 | The loop over the listing, for any filter, key and value, starts from an empty dict and yields a database whose names are unique |
| ReferenceDatabase.BuildKeys | utils/database.py:16-21 | The keys built are exactly the keys of the files the filter accepts |
| ReferenceDatabase.BuildLastWins | utils/database.py:17-21 | A key maps to the value of the last accepted file with that key |
| ReferenceDatabase.BuildKeyOrder | utils/database.py:17-21 | Keys come in the order of the first accepted file of each key; later files with the same key overwrite in place |
| ReferenceDatabase.LoadFromFolder | utils/database.py:16-21 | The folder build, with the image filter, the stem as key and the encoding of the joined path as value, yields a database whose names are unique |
| ReferenceDatabase.LoadFromFolderKeys | utils/database.py:16-21 | The keys of the built database are exactly the stems of the image files in the listing. Non-image names contribute no key |
| ReferenceDatabase.LoadFromFolderLastWins | utils/database.py:17-21 | An image file with no later image file of the same stem supplies that stem's value: the encoding of its path in the folder |
| ReferenceDatabase.LoadFromFolderKeyOrder | utils/database.py:17-21 | The dict's keys come in the order in which each stem first appears among the image files. A later file of the same stem changes the value, not the position |
| ReferenceDatabase.AddPerson | utils/database.py:38-44 | A missing image gives `FileNotFoundError` for that path and nothing is stored. Otherwise `name` maps to the image's encoding, no other name changes, and the key set gains only `name` |
| ReferenceDatabase.RemovePerson | utils/database.py:58-63 | A present name is deleted, shrinking the database by one. An absent name returns the database unchanged. Either way no other name's value changes |
| ReferenceDatabase.AssignOverwrites | utils/database.py:42 | Assigning the same name twice equals assigning only the second embedding. There is one entry, in the same place |
| ReferenceDatabase.AddThenRemove | utils/database.py:38-63 | A successful add followed by removing the same name gives exactly the database that removing the name alone gives |
| ReferenceDatabase.RemoveIdempotent | utils/database.py:58-63 | Removing a name twice is the same as removing it once |
| QuerySelection.Images | utils/recognition.py:20 | The filtered listing holds exactly the listing's image entries |
| QuerySelection.ImagesAppend | utils/recognition.py:20 | The filter of a concatenation is the concatenation of the filters, so image entries keep their listing order and multiplicity |
| QuerySelection.ImagesSingle | utils/recognition.py:20 | A single entry is kept exactly when its name is an image name |
| QuerySelection.SortByRecency | utils/recognition.py:25 | The sort is a permutation of its input, newest first |
| QuerySelection.SortedHeadIsFirstNewest | utils/recognition.py:25-26 | The first sorted image is an image file that no image file is newer than. Every image file before it in the listing is strictly older, so the stable reverse sort sends ties to listing order |
| QuerySelection.SelectQuery | utils/recognition.py:20-26 | It fails with the no-image error for the folder `data/querry_images` exactly when no listed name is an image. Otherwise it returns the first-newest image, joined onto the query folder |
| QuerySelection.FirstNewestImageUnique | utils/verification.py:26-27 | At most one listing position is the first-newest image, so the chosen query is determined |
| Recognition.Nearest | utils/recognition.py:32-39 | An empty database gives `(inf, None)`. Otherwise the result is the distance and name of an entry that no entry beats and that every earlier entry strictly loses to |
| Recognition.WhoIsIt | utils/recognition.py:19-46 | With no query image it raises `FileNotFoundError` for the query folder before any comparison. Otherwise it returns the selected query path and the first nearest entry to that query's encoding |
| Recognition.NearestIsUnique | utils/recognition.py:37 | Two results that both meet the search's postcondition are equal. The strict `<` fixes the tie-break |
| Recognition.NearestIdentityIsKey | utils/recognition.py:35-39 | On a non-empty database the identity is a key, its stored embedding is at the reported distance, and no entry is nearer |
| Recognition.NotInDatabase | utils/recognition.py:41 | "Not in the database" holds exactly when the 1.5 threshold is strictly below the minimum distance, under Python's ordering with infinity above every finite value |
| Recognition.OpenSetBoundary | utils/recognition.py:41-44 | A minimum distance of exactly 1.5 counts as identified. The empty database's infinity is reported as not in the database |
| Verification.Compare | utils/verification.py:33-41 | An identity that is not a key gives `KeyError`, and only then. Otherwise the distance is taken from the probe to the embedding stored under that identity, and it is a match iff that distance is < 0.7 |
| Verification.Verify | utils/verification.py:20-43 | A folder without an image raises `FileNotFoundError`, whatever the identity. Otherwise the result is the comparison of the selected query's encoding with the claimed identity, together with the query path |
| Verification.CompareDependsOnClaimedEntryOnly | utils/verification.py:33 | Two databases that agree on the claimed identity give the same decision |
| Verification.IdenticalProbeMatches | utils/verification.py:33-38 | A probe equal to the stored embedding gives distance 0 and a match, under any distance that is 0 on equal vectors |
| Verification.IsMatch | utils/verification.py:36 | The strict test `dist < 0.7`. Its meaning is stated by Verification.Compare (a match exactly when the stored entry's distance is below 0.7), Verification.MatchBoundary (the threshold itself is rejected) and Verification.MatchDownwardClosed |
| Verification.MatchDownwardClosed | utils/verification.py:36 | The decision is a threshold: any distance at or below a matching one also matches, and any distance at or above a rejected one is also rejected |
| Verification.MatchBoundary | utils/verification.py:36-41 | A distance of exactly 0.7 is rejected |

## Left out

- `save_database` and `load_database_from_file` (utils/database.py:66-95): these are pickle serialization, directory creation and file reads. The missing-file guard of the loader is not modelled.
- `img_to_encoding` (utils/preprocessing.py): image decoding, the network's forward pass and the L2 normalisation are floating-point and neural-network work. The model takes the encoder as a function parameter `encode`.
- The distance: the TensorFlow and NumPy norms are a parameter `dist` that returns a real. Infinite and NaN distances, and shape mismatches under broadcasting, are not modelled.
- `os.listdir`, `os.path.getmtime` and `os.path.exists` are inputs. The listing is a sequence of names, or of name and time pairs, and existence is a boolean.
- The errors these calls raise are not modelled. `os.listdir` raises `FileNotFoundError` for a missing folder (utils/database.py:17, utils/recognition.py:20, utils/verification.py:21). `img_to_encoding` raises on an unreadable image (utils/database.py:21 and 41, utils/recognition.py:29, utils/verification.py:30). The model has no error path for either, because it takes the listing and the encoder as given.
- In-place mutation: `add_person_to_database` and `remove_person_from_database` change the caller's dict and return that same object (utils/database.py:42, 44, 59, 63), and the commented-out example calls at main.py:21-22 ignore the returned value. The model returns a new database value instead. It does not model aliasing, so a caller that drops the result keeps the old database in the model but not in Python.
- FileNames.IsImageName: lower-casing is modelled on ASCII letters only. Python's full Unicode lower-casing is not modelled.
- FileNames.Stem: only the name part of `os.path.splitext` is modelled. Names from a directory listing contain no '/'. Paths follow POSIX rules (`posixpath`); on Windows, `ntpath` would also split at '\\' and join with '\\'.
- FileNames.JoinPath: only POSIX joining of a relative name without '/' is modelled. An absolute second argument, which makes `os.path.join` drop the folder, cannot come from a directory listing.
- QuerySelection.SortByRecency: only its head is tied to the listing order, through QuerySelection.SortedHeadIsFirstNewest. Full stability of the rest of the sorted list is not stated.
- Every `print`, including the recognition and verification messages. The open-set and match decisions behind those messages are modelled as the predicates `NotInDatabase` and `IsMatch`.
- utils/model_loader.py, utils/visualization.py, utils/file_utils.py and main.py are weight loading, display, a `glob` wrapper and script wiring. They are not part of this model.

=== FILE: file_names.dfy ===
/** File-name handling shared by the database build and the query selection:
    the case-insensitive image-extension filter, `os.path.splitext` and
    `os.path.join`, for names as returned by a directory listing (no '/'). */
module FileNames {

  /** ASCII lower-casing of one character. */
  function LowerChar(c: char): char
  {
    if 'A' <= c <= 'Z' then (c as int - 'A' as int + 'a' as int) as char else c
  }

  /** `s.lower()`, on ASCII letters. */
  function Lower(s: string): (r: string)
  {
    if |s| == 0 then [] else Lower(s[..|s| - 1]) + [LowerChar(s[|s| - 1])]
  }

  /** `Lower` maps each character on its own. */
  lemma {:induction false} LowerEach(s: string)
    ensures |Lower(s)| == |s|
    ensures forall i :: 0 <= i < |s| ==> Lower(s)[i] == LowerChar(s[i])
  {
    if |s| > 0 {
      LowerEach(s[..|s| - 1]);
    }
  }

  predicate EndsWith(s: string, suffix: string)
  {
    |suffix| <= |s| && s[|s| - |suffix|..] == suffix
  }

  /** `f` ends in `ext` when its characters are lower-cased one at a time,
      compared from the back. */
  predicate EndsWithIgnoringCase(f: string, ext: string)
  {
    |ext| == 0 ||
    (|f| > 0 && LowerChar(f[|f| - 1]) == ext[|ext| - 1] && EndsWithIgnoringCase(f[..|f| - 1], ext[..|ext| - 1]))
  }

  /** A string with one more character at the end ends in `ext` exactly
      when that character is the last of `ext` and the rest of `ext` ends
      the shorter string. */
  lemma EndsWithSnoc(p: string, c: char, ext: string)
    requires |ext| > 0
    ensures EndsWith(p + [c], ext) <==> c == ext[|ext| - 1] && EndsWith(p, ext[..|ext| - 1])
  {
    var s := p + [c];
    var n := |s|;
    var m := |ext|;
    if m <= n {
      assert s[n - m..] == p[n - m..] + [c];
      assert ext == ext[..m - 1] + [ext[m - 1]];
      if s[n - m..] == ext {
        assert p[n - m..] == s[n - m..][..m - 1];
      }
    }
  }

  /** Comparing the tail of the lower-cased name is comparing the tail of
      the name character by character. */
  lemma {:induction false} LowerEndsWith(f: string, ext: string)
    ensures EndsWith(Lower(f), ext) <==> EndsWithIgnoringCase(f, ext)
  {
    if |ext| > 0 && |f| > 0 {
      var n := |f|;
      LowerEndsWith(f[..n - 1], ext[..|ext| - 1]);
      assert Lower(f) == Lower(f[..n - 1]) + [LowerChar(f[n - 1])];
      EndsWithSnoc(Lower(f[..n - 1]), LowerChar(f[n - 1]), ext);
    } else if |ext| > 0 {
      assert Lower(f) == [];
    }
  }

  /** `f.lower().endswith((".jpg", ".png", ".jpeg"))` */
  predicate IsImageName(f: string)
  {
    var l := Lower(f);
    EndsWith(l, ".jpg") || EndsWith(l, ".png") || EndsWith(l, ".jpeg")
  }

  /** A name is an image name exactly when it ends in one of the three
      extensions, compared character by character whatever the case. */
  lemma ImageNameIgnoresCase(f: string)
    ensures IsImageName(f) <==>
      EndsWithIgnoringCase(f, ".jpg") || EndsWithIgnoringCase(f, ".png") || EndsWithIgnoringCase(f, ".jpeg")
  {
    LowerEndsWith(f, ".jpg");
    LowerEndsWith(f, ".png");
    LowerEndsWith(f, ".jpeg");
  }

  /** The accepted extensions are matched whatever their case. */
  lemma ImageNameExamples()
    ensures IsImageName("a.b.JPG")
    ensures IsImageName(".png")
  {
    LowerEach("a.b.JPG");
    LowerEach(".png");
    assert Lower("a.b.JPG") == "a.b.jpg";
    assert Lower(".png") == ".png";
  }

  /** Other extensions are refused, and so is an accepted extension that is
      not at the very end of the name. */
  lemma ImageNameRejects()
    ensures !IsImageName("notes.txt")
    ensures !IsImageName("x.jpg.bak")
  {
    LowerEach("notes.txt");
    LowerEach("x.jpg.bak");
    assert Lower("notes.txt") == "notes.txt";
    assert Lower("x.jpg.bak") == "x.jpg.bak";
  }

  predicate AllDots(s: string)
  {
    forall i :: 0 <= i < |s| ==> s[i] == '.'
  }

  /** Index of the last '.' in `s`, or -1 when there is none. */
  function LastDot(s: string): (r: int)
    ensures -1 <= r < |s|
    ensures r >= 0 ==> s[r] == '.'
    ensures forall k :: r < k < |s| ==> s[k] != '.'
  {
    if |s| == 0 then -1
    else if s[|s| - 1] == '.' then |s| - 1
    else LastDot(s[..|s| - 1])
  }

  /** `os.path.splitext(f)[0]` for a name without '/': the name with its
      final extension removed, where leading dots never start an extension.
      The result is a prefix of `f`; when it is shorter, what was dropped is
      one '.' followed by no other '.', and something other than dots
      precedes it; when nothing is dropped, no '.' of `f` could have been
      split at. */
  function Stem(f: string): (r: string)
    ensures r <= f
    ensures r != f ==>
      && f[|r|] == '.'
      && (forall k :: |r| < k < |f| ==> f[k] != '.')
      && !AllDots(r)
    ensures r == f ==> forall k :: 0 <= k < |f| && f[k] == '.' ==> AllDots(f[..k])
  {
    var d := LastDot(f);
    if d >= 0 && !AllDots(f[..d]) then
      f[..d]
    else
      assert forall k :: 0 <= k < |f| && f[k] == '.' ==> AllDots(f[..k]) by {
        forall k | 0 <= k < |f| && f[k] == '.'
          ensures AllDots(f[..k])
        {
          assert k <= d;
          assert forall i :: 0 <= i < k ==> f[..k][i] == f[..d][i];
        }
      }
      f
  }

  /** Removing an extension from a name that has something other than dots
      before it gives back that name. */
  lemma {:induction false} StemDropsExtension(base: string, ext: string)
    requires |ext| >= 1 && ext[0] == '.'
    requires forall k :: 1 <= k < |ext| ==> ext[k] != '.'
    requires !AllDots(base)
    ensures Stem(base + ext) == base
  {
    var f := base + ext;
    assert f[|base|] == '.';
    assert f[..|base|] == base;
  }

  /** Edge cases of `os.path.splitext` where an extension is removed. */
  lemma StemExamples()
    ensures Stem("a.b.JPG") == "a.b"
    ensures Stem("a..jpg") == "a."
  {
    assert !AllDots("a.") by { assert "a."[0] == 'a'; }
    assert !AllDots("a.b") by { assert "a.b"[0] == 'a'; }
    StemDropsExtension("a.b", ".JPG");
    assert "a.b" + ".JPG" == "a.b.JPG";
    StemDropsExtension("a.", ".jpg");
    assert "a." + ".jpg" == "a..jpg";
  }

  /** Edge cases of `os.path.splitext` where the name is kept whole: only
      leading dots, or no dot at all. */
  lemma StemKeepsWhole()
    ensures Stem(".jpg") == ".jpg"
    ensures Stem("..png") == "..png"
    ensures Stem("README") == "README"
  {
  }

  /** `os.path.join(folder, f)` for a relative `f` without '/': the folder,
      then `f`, with one '/' between them unless the folder is empty or
      already ends in '/'. */
  function JoinPath(folder: string, f: string): (r: string)
    ensures |folder| + |f| <= |r| <= |folder| + |f| + 1
    ensures r[..|folder|] == folder
    ensures r[|r| - |f|..] == f
    ensures |r| == |folder| + |f| + 1 <==> |folder| > 0 && folder[|folder| - 1] != '/'
    ensures |r| == |folder| + |f| + 1 ==> r[|folder|] == '/'
  {
    if |folder| == 0 || folder[|folder| - 1] == '/' then folder + f else folder + "/" + f
  }
}

=== FILE: outcomes.dfy ===
/** Optional values, the errors the matching core raises, and a Result
    type that carries either a value or one of those errors. */
module Outcomes {

  /** Python's `None` or a present value. */
  datatype Option<+T> = None | Some(value: T)

  /** The exceptions raised by the core. */
  datatype Error =
    | FileNotFound(path: string)   // `FileNotFoundError` for a missing image path
    | NoImageIn(folder: string)    // `FileNotFoundError` when a query folder holds no image
    | KeyError(key: string)        // `KeyError` from indexing the database with an absent name

  /** Either a value or the error that was raised instead. */
  datatype Result<+T> = Ok(value: T) | Err(error: Error)
}

=== FILE: query_selection.dfy ===
/** Choice of the query image shared by recognition and verification: the
    image files of the query folder, sorted by modification time, newest
    first, with Python's stable `list.sort(..., reverse=True)`; the first
    one is the query. */
module QuerySelection {
  import opened Outcomes
  import opened FileNames

  /** The folder both matching functions read their query image from. */
  const QueryFolder: string := "data/querry_images"

  /** One directory-listing entry with its `os.path.getmtime`. */
  datatype FileStat = FileStat(name: string, mtime: real)

  /** The list comprehension keeping the image files, in listing order. */
  function Images(listing: seq<FileStat>): (r: seq<FileStat>)
    ensures forall x :: x in r <==> x in listing && IsImageName(x.name)
  {
    if |listing| == 0 then []
    else if IsImageName(listing[0].name) then [listing[0]] + Images(listing[1..])
    else Images(listing[1..])
  }

  /** The filter distributes over concatenation, so it keeps the image files
      in listing order and with their multiplicity. */
  lemma {:induction false} ImagesAppend(a: seq<FileStat>, b: seq<FileStat>)
    ensures Images(a + b) == Images(a) + Images(b)
    decreases |a|
  {
    if |a| == 0 {
      assert a + b == b;
    } else {
      assert (a + b)[0] == a[0];
      assert (a + b)[1..] == a[1..] + b;
      ImagesAppend(a[1..], b);
    }
  }

  /** A single file survives the filter exactly when it is an image. */
  lemma ImagesSingle(x: FileStat)
    ensures Images([x]) == if IsImageName(x.name) then [x] else []
  {
    assert [x][1..] == [];
  }

  ghost predicate NewestFirst(s: seq<FileStat>)
  {
    forall i, j :: 0 <= i < j < |s| ==> s[i].mtime >= s[j].mtime
  }

  /** Insert `x` before the first entry that is strictly older, so that it
      stays ahead of the entries it ties with. */
  function InsertByRecency(x: FileStat, s: seq<FileStat>): (r: seq<FileStat>)
    ensures multiset(r) == multiset(s) + multiset{x}
    ensures NewestFirst(s) ==> NewestFirst(r)
  {
    if |s| == 0 || x.mtime >= s[0].mtime then
      assert NewestFirst(s) ==> NewestFirst([x] + s) by {
        if NewestFirst(s) {
          forall i, j | 0 <= i < j < |s| + 1 ensures ([x] + s)[i].mtime >= ([x] + s)[j].mtime {
            if i > 0 { assert ([x] + s)[i] == s[i - 1]; }
            assert ([x] + s)[j] == s[j - 1];
          }
        }
      }
      [x] + s
    else
      var rest := InsertByRecency(x, s[1..]);
      assert s == [s[0]] + s[1..];
      InsertKeepsOrder(x, s, rest);
      [s[0]] + rest
  }

  /** The step of the insertion that keeps the older `x` behind `s[0]`. */
  lemma InsertKeepsOrder(x: FileStat, s: seq<FileStat>, rest: seq<FileStat>)
    requires |s| > 0 && x.mtime < s[0].mtime
    requires multiset(rest) == multiset(s[1..]) + multiset{x}
    requires NewestFirst(s[1..]) ==> NewestFirst(rest)
    ensures NewestFirst(s) ==> NewestFirst([s[0]] + rest)
  {
    if NewestFirst(s) {
      assert NewestFirst(s[1..]);
      var r := [s[0]] + rest;
      forall i, j | 0 <= i < j < |r| ensures r[i].mtime >= r[j].mtime {
        assert r[j] == rest[j - 1];
        if i == 0 {
          var y := rest[j - 1];
          assert y in multiset(rest);
          if y != x {
            assert y in s[1..];
            var k :| 0 <= k < |s[1..]| && s[1..][k] == y;
            assert s[k + 1] == y;
          }
        } else {
          assert r[i] == rest[i - 1];
        }
      }
    }
  }

  /** `sort(key=mtime, reverse=True)`: newest first, and entries of equal
      age in their original order. */
  function SortByRecency(s: seq<FileStat>): (r: seq<FileStat>)
    ensures multiset(r) == multiset(s)
    ensures NewestFirst(r)
  {
    if |s| == 0 then []
    else
      assert s == [s[0]] + s[1..];
      InsertByRecency(s[0], SortByRecency(s[1..]))
  }

  /** Entry `i` of the listing is an image file, no image file is newer,
      and every earlier image file is strictly older. */
  ghost predicate IsFirstNewestImage(listing: seq<FileStat>, i: int)
  {
    && 0 <= i < |listing|
    && IsImageName(listing[i].name)
    && (forall j :: 0 <= j < |listing| && IsImageName(listing[j].name) ==> listing[j].mtime <= listing[i].mtime)
    && (forall j :: 0 <= j < i && IsImageName(listing[j].name) ==> listing[j].mtime < listing[i].mtime)
  }

  /** Prepending a file that is not an image shifts the first-newest image
      by one. */
  lemma FirstNewestSkipsNonImage(listing: seq<FileStat>, i: int)
    requires |listing| > 0 && !IsImageName(listing[0].name)
    requires IsFirstNewestImage(listing[1..], i)
    ensures IsFirstNewestImage(listing, i + 1)
  {
    var tail := listing[1..];
    assert forall j :: 0 <= j < |tail| ==> tail[j] == listing[j + 1];
    assert listing[i + 1] == tail[i];
    forall j | 0 <= j < |listing| && IsImageName(listing[j].name)
      ensures listing[j].mtime <= listing[i + 1].mtime
    {
      assert listing[j] == tail[j - 1];
    }
  }

  /** An image at the front is the first-newest image when no later image
      is newer. */
  lemma FirstNewestAtFront(listing: seq<FileStat>)
    requires |listing| > 0 && IsImageName(listing[0].name)
    requires forall j :: 0 < j < |listing| && IsImageName(listing[j].name) ==> listing[j].mtime <= listing[0].mtime
    ensures IsFirstNewestImage(listing, 0)
  {
  }

  /** An image at the front that is strictly older than the first-newest
      image of the rest leaves that one in place, shifted by one. */
  lemma FirstNewestBehindOlderImage(listing: seq<FileStat>, i: int)
    requires |listing| > 0
    requires IsFirstNewestImage(listing[1..], i)
    requires listing[0].mtime < listing[1..][i].mtime
    ensures IsFirstNewestImage(listing, i + 1)
  {
    var tail := listing[1..];
    assert forall j :: 0 <= j < |tail| ==> tail[j] == listing[j + 1];
    forall j | 0 < j < |listing| && IsImageName(listing[j].name)
      ensures listing[j].mtime <= listing[i + 1].mtime
    {
      assert listing[j] == tail[j - 1];
    }
    forall j | 0 < j < i + 1 && IsImageName(listing[j].name)
      ensures listing[j].mtime < listing[i + 1].mtime
    {
      assert listing[j] == tail[j - 1];
    }
  }

  /** An image in front of a listing with no other image is the query. */
  lemma SortedHeadLoneImage(listing: seq<FileStat>)
    requires |listing| > 0 && IsImageName(listing[0].name)
    requires |Images(listing[1..])| == 0
    ensures IsFirstNewestImage(listing, 0) && SortByRecency(Images(listing))[0] == listing[0]
  {
    var tail := listing[1..];
    assert Images(listing) == [listing[0]] + Images(tail);
    assert SortByRecency(Images(listing)) == [listing[0]];
    forall j | 0 < j < |listing|
      ensures !IsImageName(listing[j].name)
    {
      assert tail[j - 1] == listing[j];
      assert listing[j] !in Images(tail);
    }
    FirstNewestAtFront(listing);
  }

  /** An image in front of a listing whose sorted images start at the
      first-newest image `i` of the rest: the front image wins unless it is
      strictly older. */
  lemma SortedHeadImageInFront(listing: seq<FileStat>, i: int)
    requires |listing| > 0 && IsImageName(listing[0].name)
    requires |Images(listing[1..])| > 0
    requires IsFirstNewestImage(listing[1..], i) && SortByRecency(Images(listing[1..]))[0] == listing[1..][i]
    ensures exists k :: IsFirstNewestImage(listing, k) && SortByRecency(Images(listing))[0] == listing[k]
  {
    var x := listing[0];
    var tail := listing[1..];
    assert tail[i] == listing[i + 1];
    assert Images(listing) == [x] + Images(tail);
    assert SortByRecency(Images(listing)) == InsertByRecency(x, SortByRecency(Images(tail)));
    if x.mtime >= tail[i].mtime {
      forall j | 0 < j < |listing| && IsImageName(listing[j].name)
        ensures listing[j].mtime <= x.mtime
      {
        assert tail[j - 1] == listing[j];
      }
      FirstNewestAtFront(listing);
      assert SortByRecency(Images(listing))[0] == listing[0];
    } else {
      FirstNewestBehindOlderImage(listing, i);
      assert SortByRecency(Images(listing))[0] == listing[i + 1];
    }
  }

  /** The head of the sorted images is the first of the newest image files
      in listing order. */
  lemma {:induction false} SortedHeadIsFirstNewest(listing: seq<FileStat>)
    requires |Images(listing)| > 0
    ensures exists i :: IsFirstNewestImage(listing, i) && SortByRecency(Images(listing))[0] == listing[i]
  {
    var tail := listing[1..];
    if !IsImageName(listing[0].name) {
      assert Images(listing) == Images(tail);
      SortedHeadIsFirstNewest(tail);
      var i :| IsFirstNewestImage(tail, i) && SortByRecency(Images(tail))[0] == tail[i];
      FirstNewestSkipsNonImage(listing, i);
    } else if |Images(tail)| == 0 {
      SortedHeadLoneImage(listing);
    } else {
      SortedHeadIsFirstNewest(tail);
      var i :| IsFirstNewestImage(tail, i) && SortByRecency(Images(tail))[0] == tail[i];
      SortedHeadImageInFront(listing, i);
    }
  }

  /** Selecting the query: no image file raises `FileNotFoundError`;
      otherwise the query is the first of the most recently modified image
      files, joined onto the query folder. */
  function SelectQuery(listing: seq<FileStat>): (r: Result<string>)
    ensures r.Err? <==> forall j :: 0 <= j < |listing| ==> !IsImageName(listing[j].name)
    ensures r.Err? ==> r.error == NoImageIn(QueryFolder)
    ensures r.Ok? ==> exists i :: IsFirstNewestImage(listing, i) && r.value == JoinPath(QueryFolder, listing[i].name)
  {
    var images := Images(listing);
    if |images| == 0 then
      assert forall j :: 0 <= j < |listing| ==> !IsImageName(listing[j].name) by {
        forall j | 0 <= j < |listing| ensures !IsImageName(listing[j].name) {
          assert listing[j] !in images;
        }
      }
      Err(NoImageIn(QueryFolder))
    else
      SortedHeadIsFirstNewest(listing);
      Ok(JoinPath(QueryFolder, SortByRecency(images)[0].name))
  }

  /** The first-newest image is unique, so the query is fully determined. */
  lemma FirstNewestImageUnique(listing: seq<FileStat>, i: int, k: int)
    requires IsFirstNewestImage(listing, i) && IsFirstNewestImage(listing, k)
    ensures i == k
  {
  }
}

=== FILE: recognition.dfy ===
/** One-to-many recognition (`who_is_it`): the query image is compared with
    every database entry in insertion order, keeping a strict running
    minimum that starts at `float("inf")` and `None`; a minimum above 1.5 is
    reported as "not in the database". */
module Recognition {
  import opened Outcomes
  import opened ReferenceDatabase
  import opened QuerySelection

  /** The largest distance still reported as a known identity. */
  const RecognizeThreshold: real := 1.5

  /** A distance as Python holds it here: a finite value or `float("inf")`. */
  datatype Distance = Finite(value: real) | Infinity

  /** Python's `a < b` with `float("inf")` above every finite value. */
  predicate Below(a: Distance, b: Distance)
  {
    match (a, b)
    case (Finite(x), Finite(y)) => x < y
    case (Finite(_), Infinity) => true
    case (Infinity, _) => false
  }

  /** `min_dist > 1.5`: the open-set rejection that prints "Not in the
      database.", that is, the threshold is below the minimum distance. */
  predicate NotInDatabase(minDist: Distance): (r: bool)
    ensures r <==> Below(Finite(RecognizeThreshold), minDist)
  {
    match minDist
    case Infinity => true
    case Finite(v) => v > RecognizeThreshold
  }

  /** The outcome of `who_is_it`: `(min_dist, identity, query_path)`. */
  datatype Recognized = Recognized(minDist: Distance, identity: Option<string>, queryPath: string)

  /** Entry `i` is the nearest to `probe`, and every earlier entry is
      strictly farther: the first of the nearest entries. */
  ghost predicate IsFirstNearest(db: Database, probe: Embedding, dist: (Embedding, Embedding) -> real, i: int)
  {
    && 0 <= i < |db|
    && (forall j :: 0 <= j < |db| ==> dist(probe, db[i].embedding) <= dist(probe, db[j].embedding))
    && (forall j :: 0 <= j < i ==> dist(probe, db[i].embedding) < dist(probe, db[j].embedding))
  }

  /** What the search returns: `(inf, None)` for an empty database, and
      otherwise the distance and name of the first nearest entry. */
  ghost predicate IsNearest(db: Database, probe: Embedding, dist: (Embedding, Embedding) -> real,
                            minDist: Distance, identity: Option<string>)
  {
    if |db| == 0 then minDist == Infinity && identity == None
    else exists i :: IsFirstNearest(db, probe, dist, i)
                     && minDist == Finite(dist(probe, db[i].embedding))
                     && identity == Some(db[i].name)
  }

  /** The comparison loop of `who_is_it`. The database is only read. */
  method Nearest(db: Database, probe: Embedding, dist: (Embedding, Embedding) -> real)
    returns (minDist: Distance, identity: Option<string>)
    ensures IsNearest(db, probe, dist, minDist, identity)
  {
    minDist := Infinity;
    identity := None;
    ghost var best := -1;
    var k := 0;
    while k < |db|
      invariant 0 <= k <= |db|
      invariant k == 0 ==> best == -1 && minDist == Infinity && identity == None
      invariant k > 0 ==> 0 <= best < k
      invariant k > 0 ==> minDist == Finite(dist(probe, db[best].embedding)) && identity == Some(db[best].name)
      invariant k > 0 ==> forall j :: 0 <= j < k ==> dist(probe, db[best].embedding) <= dist(probe, db[j].embedding)
      invariant k > 0 ==> forall j :: 0 <= j < best ==> dist(probe, db[best].embedding) < dist(probe, db[j].embedding)
    {
      var d := dist(probe, db[k].embedding);
      if Below(Finite(d), minDist) {
        minDist := Finite(d);
        identity := Some(db[k].name);
        best := k;
      }
      k := k + 1;
    }
    if |db| > 0 {
      assert IsFirstNearest(db, probe, dist, best);
    }
  }

  /** `who_is_it`: without a query image `FileNotFoundError` is raised
      before any comparison; otherwise the query is the newest image file,
      encoded by `encode`, and the result is its nearest entry. */
  method WhoIsIt(db: Database, listing: seq<FileStat>, encode: string -> Embedding,
                 dist: (Embedding, Embedding) -> real)
    returns (r: Result<Recognized>)
    ensures r.Err? <==> SelectQuery(listing).Err?
    ensures r.Err? ==> r.error == NoImageIn(QueryFolder)
    ensures r.Ok? ==>
      && r.value.queryPath == SelectQuery(listing).value
      && IsNearest(db, encode(r.value.queryPath), dist, r.value.minDist, r.value.identity)
  {
    var query := SelectQuery(listing);
    if query.Err? {
      return Err(query.error);
    }
    var queryPath := query.value;
    var encoding := encode(queryPath);
    var minDist, identity := Nearest(db, encoding, dist);
    return Ok(Recognized(minDist, identity, queryPath));
  }

  /** The search result is fully determined: ties go to the entry inserted
      first. */
  lemma NearestIsUnique(db: Database, probe: Embedding, dist: (Embedding, Embedding) -> real,
                        m1: Distance, id1: Option<string>, m2: Distance, id2: Option<string>)
    requires IsNearest(db, probe, dist, m1, id1)
    requires IsNearest(db, probe, dist, m2, id2)
    ensures m1 == m2 && id1 == id2
  {
    if |db| > 0 {
      var i :| IsFirstNearest(db, probe, dist, i) && m1 == Finite(dist(probe, db[i].embedding)) && id1 == Some(db[i].name);
      var k :| IsFirstNearest(db, probe, dist, k) && m2 == Finite(dist(probe, db[k].embedding)) && id2 == Some(db[k].name);
      assert !(i < k) && !(k < i);
    }
  }

  /** On a non-empty database the identity found is a key, and what it
      maps to is at the reported distance, which no entry beats. */
  lemma NearestIdentityIsKey(db: Database, probe: Embedding, dist: (Embedding, Embedding) -> real,
                             minDist: Distance, identity: Option<string>)
    requires UniqueKeys(db)
    requires |db| > 0
    requires IsNearest(db, probe, dist, minDist, identity)
    ensures identity.Some? && minDist.Finite?
    ensures Lookup(db, identity.value).Some?
    ensures minDist.value == dist(probe, Lookup(db, identity.value).value)
    ensures forall e :: e in db ==> minDist.value <= dist(probe, e.embedding)
  {
    var i :| IsFirstNearest(db, probe, dist, i) && minDist == Finite(dist(probe, db[i].embedding)) && identity == Some(db[i].name);
    LookupEntry(db, i);
    forall e | e in db ensures minDist.value <= dist(probe, e.embedding) {
      var j :| 0 <= j < |db| && db[j] == e;
    }
  }

  /** The open-set boundary: exactly 1.5 is still a known identity, anything
      above it and the empty-database infinity are not. */
  lemma OpenSetBoundary()
    ensures !NotInDatabase(Finite(RecognizeThreshold))
    ensures NotInDatabase(Infinity)
  {
  }
}

=== FILE: reference_database.dfy ===
/** The reference database: a Python dict from identity name to embedding,
    modelled as an association list in insertion order with unique names.
    Re-assigning an existing name keeps its position; a new name goes last. */
module ReferenceDatabase {
  import opened Outcomes
  import opened FileNames

  /** The encoder's output; its contents are never inspected by the core. */
  type Embedding = seq<real>

  datatype Entry = Entry(name: string, embedding: Embedding)

  type Database = seq<Entry>

  /** The dict invariant: no name occurs twice. */
  predicate UniqueKeys(db: Database)
  {
    forall i, j :: 0 <= i < j < |db| ==> db[i].name != db[j].name
  }

  function Keys(db: Database): set<string>
  {
    set e | e in db :: e.name
  }

  /** Position of `name` in `db`, or -1 when it is absent. */
  function IndexOf(db: Database, name: string): (r: int)
    ensures -1 <= r < |db|
    ensures r >= 0 ==> db[r].name == name && forall j :: 0 <= j < r ==> db[j].name != name
    ensures r < 0 ==> forall j :: 0 <= j < |db| ==> db[j].name != name
  {
    if |db| == 0 then -1
    else if db[0].name == name then 0
    else
      var k := IndexOf(db[1..], name);
      if k < 0 then -1 else k + 1
  }

  /** `database.get(name)` */
  function Lookup(db: Database, name: string): Option<Embedding>
  {
    var i := IndexOf(db, name);
    if i < 0 then None else Some(db[i].embedding)
  }

  /** With unique names, each entry is what its name looks up. */
  lemma LookupEntry(db: Database, i: int)
    requires UniqueKeys(db)
    requires 0 <= i < |db|
    ensures Lookup(db, db[i].name) == Some(db[i].embedding)
  {
    var k := IndexOf(db, db[i].name);
    assert k == i by {
      if k < i { assert db[k].name == db[i].name; }
    }
  }

  /** A name is found exactly when it is a key. */
  lemma LookupKeys(db: Database, name: string)
    ensures Lookup(db, name).Some? <==> name in Keys(db)
  {
    if name in Keys(db) {
      var e :| e in db && e.name == name;
    }
  }

  /** Overwriting the value at position `i` keeps the names, maps the name
      at `i` to the new value and changes no other lookup. */
  lemma OverwriteAt(db: Database, i: int, e: Embedding)
    requires UniqueKeys(db)
    requires 0 <= i < |db|
    ensures UniqueKeys(db[i := Entry(db[i].name, e)])
    ensures Keys(db[i := Entry(db[i].name, e)]) == Keys(db)
    ensures Lookup(db[i := Entry(db[i].name, e)], db[i].name) == Some(e)
    ensures forall n :: n != db[i].name ==> Lookup(db[i := Entry(db[i].name, e)], n) == Lookup(db, n)
  {
    var name := db[i].name;
    var r := db[i := Entry(name, e)];
    forall n | n in Keys(r) ensures n in Keys(db) {
      var x :| x in r && x.name == n;
      var j :| 0 <= j < |r| && r[j] == x;
      assert db[j].name == n;
    }
    forall n | n in Keys(db) ensures n in Keys(r) {
      var x :| x in db && x.name == n;
      var j :| 0 <= j < |db| && db[j] == x;
      assert r[j].name == n;
    }
    LookupEntry(r, i);
    forall n | n != name
      ensures Lookup(r, n) == Lookup(db, n)
    {
      var j := IndexOf(db, n);
      LookupKeys(db, n);
      LookupKeys(r, n);
      if j >= 0 {
        LookupEntry(db, j);
        LookupEntry(r, j);
      }
    }
  }

  /** Appending an entry under a new name keeps the names unique, adds
      exactly that name and changes no other lookup. */
  lemma AppendNew(db: Database, x: Entry)
    requires UniqueKeys(db)
    requires x.name !in Keys(db)
    ensures UniqueKeys(db + [x])
    ensures Keys(db + [x]) == Keys(db) + {x.name}
    ensures Lookup(db + [x], x.name) == Some(x.embedding)
    ensures forall n :: n != x.name ==> Lookup(db + [x], n) == Lookup(db, n)
  {
    var r := db + [x];
    forall j | 0 <= j < |db| ensures db[j].name != x.name {
      assert db[j] in db;
    }
    assert r[|db|] == x;
    LookupEntry(r, |db|);
    forall n | n != x.name
      ensures Lookup(r, n) == Lookup(db, n)
    {
      var j := IndexOf(db, n);
      LookupKeys(db, n);
      LookupKeys(r, n);
      if j >= 0 {
        LookupEntry(db, j);
        assert r[j] == db[j];
        LookupEntry(r, j);
      }
    }
  }

  /** `database[name] = e`: overwrite in place, or append a new entry.
      Afterwards `name` maps to `e`, every other name maps to what it did,
      an existing name keeps its position and a new one goes last. */
  function Assign(db: Database, name: string, e: Embedding): (r: Database)
    requires UniqueKeys(db)
    ensures UniqueKeys(r)
    ensures Lookup(r, name) == Some(e)
    ensures forall n :: n != name ==> Lookup(r, n) == Lookup(db, n)
    ensures Keys(r) == Keys(db) + {name}
    ensures name in Keys(db) ==> |r| == |db| && forall i :: 0 <= i < |db| ==> r[i].name == db[i].name
    ensures name !in Keys(db) ==> r == db + [Entry(name, e)]
  {
    var i := IndexOf(db, name);
    LookupKeys(db, name);
    if i >= 0 then
      OverwriteAt(db, i, e);
      db[i := Entry(name, e)]
    else
      AppendNew(db, Entry(name, e));
      db + [Entry(name, e)]
  }

  /** Removing position `i` keeps the names unique. */
  lemma RemoveAtUnique(db: Database, i: int)
    requires UniqueKeys(db)
    requires 0 <= i < |db|
    ensures UniqueKeys(db[..i] + db[i + 1..])
  {
    var r := db[..i] + db[i + 1..];
    forall j | 0 <= j < |r| ensures r[j] == db[if j < i then j else j + 1] {
    }
  }

  /** Every name left after removing position `i` was a name other than
      the one at `i`. */
  lemma RemoveAtKeysShrink(db: Database, i: int)
    requires UniqueKeys(db)
    requires 0 <= i < |db|
    ensures Keys(db[..i] + db[i + 1..]) <= Keys(db) - {db[i].name}
  {
    var r := db[..i] + db[i + 1..];
    forall n | n in Keys(r) ensures n in Keys(db) - {db[i].name} {
      var x :| x in r && x.name == n;
      var j :| 0 <= j < |r| && r[j] == x;
      assert db[if j < i then j else j + 1] == x;
    }
  }

  /** Every name other than the one at `i` survives its removal. */
  lemma RemoveAtKeysKeep(db: Database, i: int)
    requires 0 <= i < |db|
    ensures Keys(db) - {db[i].name} <= Keys(db[..i] + db[i + 1..])
  {
    var r := db[..i] + db[i + 1..];
    forall n | n in Keys(db) - {db[i].name} ensures n in Keys(r) {
      var x :| x in db && x.name == n;
      var j :| 0 <= j < |db| && db[j] == x;
      assert r[if j < i then j else j - 1] == x;
    }
  }

  /** Removing position `i` keeps the names unique and drops exactly the
      name at `i` from the keys. */
  lemma RemoveAtKeys(db: Database, i: int)
    requires UniqueKeys(db)
    requires 0 <= i < |db|
    ensures UniqueKeys(db[..i] + db[i + 1..])
    ensures Keys(db[..i] + db[i + 1..]) == Keys(db) - {db[i].name}
  {
    RemoveAtUnique(db, i);
    RemoveAtKeysShrink(db, i);
    RemoveAtKeysKeep(db, i);
  }

  /** Removing position `i` changes the lookup of no other name. */
  lemma RemoveAtLookup(db: Database, i: int, n: string)
    requires UniqueKeys(db)
    requires 0 <= i < |db|
    requires n != db[i].name
    ensures Lookup(db[..i] + db[i + 1..], n) == Lookup(db, n)
  {
    var r := db[..i] + db[i + 1..];
    RemoveAtKeys(db, i);
    var j := IndexOf(db, n);
    LookupKeys(db, n);
    LookupKeys(r, n);
    if j >= 0 {
      LookupEntry(db, j);
      if j < i {
        assert r[j] == db[j];
        LookupEntry(r, j);
      } else {
        assert r[j - 1] == db[j];
        LookupEntry(r, j - 1);
      }
    }
  }

  /** `del database[name]` for a present name: afterwards `name` is absent,
      every other name maps to what it did and the remaining entries keep
      their order. */
  function Delete(db: Database, name: string): (r: Database)
    requires UniqueKeys(db)
    requires name in Keys(db)
    ensures UniqueKeys(r)
    ensures Lookup(r, name) == None
    ensures forall n :: n != name ==> Lookup(r, n) == Lookup(db, n)
    ensures Keys(r) == Keys(db) - {name}
    ensures exists i :: 0 <= i < |db| && db[i].name == name && r == db[..i] + db[i + 1..]
  {
    var i := IndexOf(db, name);
    LookupKeys(db, name);
    var r := db[..i] + db[i + 1..];
    RemoveAtKeys(db, i);
    LookupKeys(r, name);
    assert forall n :: n != name ==> Lookup(r, n) == Lookup(db, n) by {
      forall n | n != name ensures Lookup(r, n) == Lookup(db, n) {
        RemoveAtLookup(db, i, n);
      }
    }
    r
  }

  // ---------------------------------------------------------------------
  // The three database operations of the source
  // ---------------------------------------------------------------------

  /** One step of the folder build: a file that `keep` accepts is stored
      under `key(f)` with value `value(f)`; any other file is skipped. */
  function AcceptFile(db: Database, f: string, keep: string -> bool, key: string -> string, value: string -> Embedding): (r: Database)
    requires UniqueKeys(db)
    ensures UniqueKeys(r)
  {
    if keep(f) then Assign(db, key(f), value(f)) else db
  }

  /** The loop of `load_database_from_folder` for any filter, key and value:
      starting from an empty dict, visit the listing in order. */
  function Build(listing: seq<string>, keep: string -> bool, key: string -> string, value: string -> Embedding): (r: Database)
    ensures UniqueKeys(r)
    decreases |listing|
  {
    if |listing| == 0 then []
    else AcceptFile(Build(listing[..|listing| - 1], keep, key, value), listing[|listing| - 1], keep, key, value)
  }

  /** `load_database_from_folder`: every image file of the listing is
      stored under its stem, with the encoding of its path in the folder as
      value. `encode` stands for `img_to_encoding`. */
  function LoadFromFolder(folder: string, listing: seq<string>, encode: string -> Embedding): (r: Database)
    ensures UniqueKeys(r)
  {
    Build(listing, IsImageName, Stem, EncodeIn(folder, encode))
  }

  /** The value stored for file `f`: the encoding of its path in `folder`. */
  function EncodeIn(folder: string, encode: string -> Embedding): string -> Embedding
  {
    f => encode(JoinPath(folder, f))
  }

  /** `add_person_to_database`: a missing image raises `FileNotFoundError`
      and nothing is stored; otherwise `name` maps to the encoding of the
      image, inserted last or overwritten in place, and no other name
      changes. `imageExists` is `os.path.exists(image_path)`. */
  function AddPerson(name: string, imagePath: string, db: Database, imageExists: bool, encode: string -> Embedding): (r: Result<Database>)
    requires UniqueKeys(db)
    ensures r.Err? <==> !imageExists
    ensures r.Err? ==> r.error == FileNotFound(imagePath)
    ensures r.Ok? ==>
      && UniqueKeys(r.value)
      && Lookup(r.value, name) == Some(encode(imagePath))
      && (forall n :: n != name ==> Lookup(r.value, n) == Lookup(db, n))
      && Keys(r.value) == Keys(db) + {name}
  {
    if !imageExists then Err(FileNotFound(imagePath))
    else Ok(Assign(db, name, encode(imagePath)))
  }

  /** `remove_person_from_database`: a present name is deleted and every
      other entry stays, in order; an absent name only prints a warning
      and the database comes back unchanged. */
  function RemovePerson(name: string, db: Database): (r: Database)
    requires UniqueKeys(db)
    ensures UniqueKeys(r)
    ensures name !in Keys(r)
    ensures Keys(r) == Keys(db) - {name}
    ensures forall n :: n != name ==> Lookup(r, n) == Lookup(db, n)
    ensures name !in Keys(db) ==> r == db
    ensures |r| == if name in Keys(db) then |db| - 1 else |db|
  {
    if name in Keys(db) then Delete(db, name) else db
  }

  // ---------------------------------------------------------------------
  // Properties relating several operations
  // ---------------------------------------------------------------------

  /** Adding the same name twice leaves one entry, holding the second
      embedding, exactly where a single add would have put it. */
  lemma AssignOverwrites(db: Database, name: string, e1: Embedding, e2: Embedding)
    requires UniqueKeys(db)
    ensures Assign(Assign(db, name, e1), name, e2) == Assign(db, name, e2)
  {
    var i := IndexOf(db, name);
    var once := Assign(db, name, e1);
    LookupKeys(db, name);
    if i >= 0 {
      assert IndexOf(once, name) == i;
    } else {
      assert IndexOf(once, name) == |db|;
    }
  }

  /** Adding a person and then removing them gives exactly what removing
      them alone gives: the name is gone and every other entry is as
      before, in the same order. */
  lemma AddThenRemove(name: string, imagePath: string, db: Database, encode: string -> Embedding)
    requires UniqueKeys(db)
    ensures AddPerson(name, imagePath, db, true, encode).Ok?
    ensures RemovePerson(name, AddPerson(name, imagePath, db, true, encode).value) == RemovePerson(name, db)
  {
    var i := IndexOf(db, name);
    var added := Assign(db, name, encode(imagePath));
    assert AddPerson(name, imagePath, db, true, encode) == Ok(added);
    LookupKeys(db, name);
    if i >= 0 {
      assert IndexOf(added, name) == i;
      assert added[..i] == db[..i];
      assert added[i + 1..] == db[i + 1..];
    } else {
      assert IndexOf(added, name) == |db|;
      assert added[..|db|] == db;
    }
  }

  /** Removing a name twice is the same as removing it once. */
  lemma RemoveIdempotent(db: Database, name: string)
    requires UniqueKeys(db)
    ensures RemovePerson(name, RemovePerson(name, db)) == RemovePerson(name, db)
  {
  }

  // ---------------------------------------------------------------------
  // The folder build, for any filter, key and value
  // ---------------------------------------------------------------------

  /** Whether the listing holds a kept file with key `k`. */
  ghost predicate HasKept(listing: seq<string>, keep: string -> bool, key: string -> string, k: string)
  {
    exists j :: 0 <= j < |listing| && keep(listing[j]) && key(listing[j]) == k
  }

  /** A kept file with key `k` is in the listing iff it is in all but the
      last entry, or the last entry is one. */
  lemma HasKeptSplit(listing: seq<string>, keep: string -> bool, key: string -> string, k: string)
    requires |listing| > 0
    ensures HasKept(listing, keep, key, k) <==>
      HasKept(listing[..|listing| - 1], keep, key, k) || (keep(listing[|listing| - 1]) && key(listing[|listing| - 1]) == k)
  {
    var n := |listing| - 1;
    var prefix := listing[..n];
    if HasKept(listing, keep, key, k) {
      var j :| 0 <= j < |listing| && keep(listing[j]) && key(listing[j]) == k;
      if j < n {
        assert prefix[j] == listing[j];
      }
    }
    if HasKept(prefix, keep, key, k) {
      var j :| 0 <= j < |prefix| && keep(prefix[j]) && key(prefix[j]) == k;
      assert prefix[j] == listing[j];
    }
  }

  /** The keys built are exactly the keys of the kept files. */
  lemma {:induction false} BuildKeys(listing: seq<string>, keep: string -> bool, key: string -> string, value: string -> Embedding, k: string)
    ensures k in Keys(Build(listing, keep, key, value)) <==> HasKept(listing, keep, key, k)
    decreases |listing|
  {
    if |listing| > 0 {
      var n := |listing| - 1;
      var prefix := listing[..n];
      BuildKeys(prefix, keep, key, value, k);
      HasKeptSplit(listing, keep, key, k);
    }
  }

  /** File `j` supplies the value of its key: it is kept and no later kept
      file has the same key. */
  ghost predicate SuppliesKey(listing: seq<string>, keep: string -> bool, key: string -> string, j: int)
    requires 0 <= j < |listing|
  {
    && keep(listing[j])
    && forall i :: j < i < |listing| && keep(listing[i]) ==> key(listing[i]) != key(listing[j])
  }

  /** A file that supplies its key in a listing still does so once the
      last file is dropped. */
  lemma SuppliesKeyInPrefix(listing: seq<string>, keep: string -> bool, key: string -> string, j: int)
    requires 0 <= j < |listing| - 1 && SuppliesKey(listing, keep, key, j)
    ensures SuppliesKey(listing[..|listing| - 1], keep, key, j)
  {
    var prefix := listing[..|listing| - 1];
    forall i | j < i < |prefix| && keep(prefix[i])
      ensures key(prefix[i]) != key(prefix[j])
    {
      assert prefix[i] == listing[i];
    }
  }

  /** A file that is not kept, or whose key is not `k`, leaves the lookup
      of `k` alone. */
  lemma AcceptFileKeeps(db: Database, f: string, keep: string -> bool, key: string -> string, value: string -> Embedding, k: string)
    requires UniqueKeys(db)
    requires keep(f) ==> key(f) != k
    ensures Lookup(AcceptFile(db, f, keep, key, value), k) == Lookup(db, k)
  {
  }

  /** When two kept files share a key the later one wins: the key of a
      supplying file maps to that file's value. */
  lemma {:induction false} BuildLastWins(listing: seq<string>, keep: string -> bool, key: string -> string, value: string -> Embedding, j: int)
    requires 0 <= j < |listing| && SuppliesKey(listing, keep, key, j)
    ensures Lookup(Build(listing, keep, key, value), key(listing[j])) == Some(value(listing[j]))
    decreases |listing|
  {
    var n := |listing| - 1;
    var prefix := listing[..n];
    var before := Build(prefix, keep, key, value);
    assert Build(listing, keep, key, value) == AcceptFile(before, listing[n], keep, key, value);
    if j < n {
      assert prefix[j] == listing[j];
      SuppliesKeyInPrefix(listing, keep, key, j);
      BuildLastWins(prefix, keep, key, value, j);
      AcceptFileKeeps(before, listing[n], keep, key, value, key(listing[j]));
    }
  }

  /** Visiting a file leaves the position of every name already stored
      where it was. */
  lemma AcceptFileKeepsIndex(db: Database, f: string, keep: string -> bool, key: string -> string, value: string -> Embedding, k: string)
    requires UniqueKeys(db)
    requires k in Keys(db)
    ensures IndexOf(AcceptFile(db, f, keep, key, value), k) == IndexOf(db, k)
  {
    var r := AcceptFile(db, f, keep, key, value);
    var i := IndexOf(db, k);
    LookupKeys(db, k);
    assert r[i].name == k;
    assert forall j :: 0 <= j < i ==> r[j].name == db[j].name;
  }

  /** A name new to `db` that is appended sits at the end. */
  lemma IndexOfAppended(db: Database, e: Entry)
    requires e.name !in Keys(db)
    ensures IndexOf(db + [e], e.name) == |db|
  {
    var r := db + [e];
    forall j | 0 <= j < |db| ensures r[j].name != e.name {
      assert db[j] in db;
    }
    assert r[|db|] == e;
  }

  /** Visiting a file keeps the relative order of two stored names. */
  lemma AcceptFileKeepsOrder(db: Database, f: string, keep: string -> bool, key: string -> string, value: string -> Embedding, k1: string, k2: string)
    requires UniqueKeys(db)
    requires k1 in Keys(db) && k2 in Keys(db)
    requires IndexOf(db, k1) < IndexOf(db, k2)
    ensures 0 <= IndexOf(AcceptFile(db, f, keep, key, value), k1) < IndexOf(AcceptFile(db, f, keep, key, value), k2)
  {
    LookupKeys(db, k1);
    AcceptFileKeepsIndex(db, f, keep, key, value, k1);
    AcceptFileKeepsIndex(db, f, keep, key, value, k2);
  }

  /** A kept file whose key is new puts that key after every stored name. */
  lemma AcceptFileNewKeyLast(db: Database, f: string, keep: string -> bool, key: string -> string, value: string -> Embedding, k: string)
    requires UniqueKeys(db)
    requires k in Keys(db)
    requires keep(f) && key(f) !in Keys(db)
    ensures 0 <= IndexOf(AcceptFile(db, f, keep, key, value), k) < IndexOf(AcceptFile(db, f, keep, key, value), key(f))
  {
    var e := Entry(key(f), value(f));
    assert AcceptFile(db, f, keep, key, value) == db + [e];
    IndexOfAppended(db, e);
    AcceptFileKeepsIndex(db, f, keep, key, value, k);
    LookupKeys(db, k);
  }

  /** File `j` is the first kept file of its key in the listing. */
  ghost predicate FirstWithKey(listing: seq<string>, keep: string -> bool, key: string -> string, j: int)
    requires 0 <= j < |listing|
  {
    && keep(listing[j])
    && forall i :: 0 <= i < j && keep(listing[i]) ==> key(listing[i]) != key(listing[j])
  }

  /** A first kept file of its key is still one once the last file is
      dropped. */
  lemma FirstWithKeyInPrefix(listing: seq<string>, keep: string -> bool, key: string -> string, j: int)
    requires 0 <= j < |listing| - 1 && FirstWithKey(listing, keep, key, j)
    ensures FirstWithKey(listing[..|listing| - 1], keep, key, j)
  {
    var prefix := listing[..|listing| - 1];
    forall i | 0 <= i < j && keep(prefix[i])
      ensures key(prefix[i]) != key(prefix[j])
    {
      assert prefix[i] == listing[i];
    }
  }

  /** No kept file before the first one of a key has that key. */
  lemma FirstWithKeyIsFresh(listing: seq<string>, keep: string -> bool, key: string -> string, j: int)
    requires 0 <= j < |listing| && FirstWithKey(listing, keep, key, j)
    ensures !HasKept(listing[..j], keep, key, key(listing[j]))
  {
    var prefix := listing[..j];
    forall i | 0 <= i < j && keep(prefix[i])
      ensures key(prefix[i]) != key(listing[j])
    {
      assert prefix[i] == listing[i];
    }
  }

  /** A key enters the dict at its first kept file and later files of that
      key only overwrite the value, so the keys come in the order in which
      they first appear among the kept files. */
  lemma {:induction false} BuildKeyOrder(listing: seq<string>, keep: string -> bool, key: string -> string, value: string -> Embedding, j1: int, j2: int)
    requires 0 <= j1 < j2 < |listing|
    requires FirstWithKey(listing, keep, key, j1) && FirstWithKey(listing, keep, key, j2)
    ensures 0 <= IndexOf(Build(listing, keep, key, value), key(listing[j1]))
              < IndexOf(Build(listing, keep, key, value), key(listing[j2]))
    decreases |listing|
  {
    var n := |listing| - 1;
    var prefix := listing[..n];
    var f := listing[n];
    var before := Build(prefix, keep, key, value);
    var k1 := key(listing[j1]);
    var k2 := key(listing[j2]);
    assert Build(listing, keep, key, value) == AcceptFile(before, f, keep, key, value);
    assert prefix[j1] == listing[j1];
    BuildKeys(prefix, keep, key, value, k1);
    if j2 < n {
      assert prefix[j2] == listing[j2];
      BuildKeys(prefix, keep, key, value, k2);
      FirstWithKeyInPrefix(listing, keep, key, j1);
      FirstWithKeyInPrefix(listing, keep, key, j2);
      BuildKeyOrder(prefix, keep, key, value, j1, j2);
      AcceptFileKeepsOrder(before, f, keep, key, value, k1, k2);
    } else {
      FirstWithKeyIsFresh(listing, keep, key, j2);
      BuildKeys(prefix, keep, key, value, k2);
      AcceptFileNewKeyLast(before, f, keep, key, value, k1);
    }
  }

  // ---------------------------------------------------------------------
  // The folder build of `load_database_from_folder`
  // ---------------------------------------------------------------------

  /** Whether the listing holds an image file with stem `k`. */
  ghost predicate HasImageWithStem(listing: seq<string>, k: string)
  {
    exists j :: 0 <= j < |listing| && IsImageName(listing[j]) && Stem(listing[j]) == k
  }

  /** The keys built from a folder are exactly the stems of its image
      files; every other file name contributes no key. */
  lemma LoadFromFolderKeys(folder: string, listing: seq<string>, encode: string -> Embedding, k: string)
    ensures k in Keys(LoadFromFolder(folder, listing, encode)) <==> HasImageWithStem(listing, k)
  {
    BuildKeys(listing, IsImageName, Stem, EncodeIn(folder, encode), k);
  }

  /** File `j` supplies the value of its stem: it is an image and no later
      image file in the listing has the same stem. */
  ghost predicate SuppliesStem(listing: seq<string>, j: int)
    requires 0 <= j < |listing|
  {
    && IsImageName(listing[j])
    && forall i :: j < i < |listing| && IsImageName(listing[i]) ==> Stem(listing[i]) != Stem(listing[j])
  }

  /** When two image files share a stem the later one in the listing wins:
      the stem of a supplying file maps to that file's encoding. */
  lemma LoadFromFolderLastWins(folder: string, listing: seq<string>, encode: string -> Embedding, j: int)
    requires 0 <= j < |listing| && SuppliesStem(listing, j)
    ensures Lookup(LoadFromFolder(folder, listing, encode), Stem(listing[j])) == Some(encode(JoinPath(folder, listing[j])))
  {
    BuildLastWins(listing, IsImageName, Stem, EncodeIn(folder, encode), j);
  }

  /** File `j` is the first image file of its stem in the listing. */
  ghost predicate FirstWithStem(listing: seq<string>, j: int)
    requires 0 <= j < |listing|
  {
    && IsImageName(listing[j])
    && forall i :: 0 <= i < j && IsImageName(listing[i]) ==> Stem(listing[i]) != Stem(listing[j])
  }

  /** The keys of the built dict come in the order in which each stem first
      appears among the image files of the listing; a later file of the
      same stem changes the value but not the position. */
  lemma LoadFromFolderKeyOrder(folder: string, listing: seq<string>, encode: string -> Embedding, j1: int, j2: int)
    requires 0 <= j1 < j2 < |listing|
    requires FirstWithStem(listing, j1) && FirstWithStem(listing, j2)
    ensures 0 <= IndexOf(LoadFromFolder(folder, listing, encode), Stem(listing[j1]))
              < IndexOf(LoadFromFolder(folder, listing, encode), Stem(listing[j2]))
  {
    BuildKeyOrder(listing, IsImageName, Stem, EncodeIn(folder, encode), j1, j2);
  }
}

=== FILE: verification.dfy ===
/** One-to-one verification (`verify`): the query image is compared with
    the stored embedding of the claimed identity, and it is a match when the
    distance is strictly below 0.7. */
module Verification {
  import opened Outcomes
  import opened FileNames
  import opened ReferenceDatabase
  import opened QuerySelection

  /** Distances strictly below this are a match. */
  const VerifyThreshold: real := 0.7

  /** `dist < 0.7`, the calibration of the verification threshold. */
  predicate IsMatch(distance: real): (r: bool)
    ensures r <==> distance < 0.7
  {
    distance < VerifyThreshold
  }

  /** The distance and the match decision of one comparison. */
  datatype Decision = Decision(distance: real, isMatch: bool)

  /** The outcome of `verify`: `(dist, door_open, query_path)`. */
  datatype Verified = Verified(distance: real, isMatch: bool, queryPath: string)

  /** `database[identity]` followed by the distance and the strict 0.7
      test: an identity that is not a key raises `KeyError`; otherwise the
      distance is taken to the embedding stored under `identity`. */
  function Compare(identity: string, db: Database, probe: Embedding, dist: (Embedding, Embedding) -> real): (r: Result<Decision>)
    requires UniqueKeys(db)
    ensures r.Err? <==> identity !in Keys(db)
    ensures r.Err? ==> r.error == KeyError(identity)
    ensures r.Ok? ==>
      exists e :: Entry(identity, e) in db
                  && r.value.distance == dist(probe, e)
                  && (r.value.isMatch <==> r.value.distance < 0.7)
  {
    LookupKeys(db, identity);
    match Lookup(db, identity)
    case None => Err(KeyError(identity))
    case Some(stored) =>
      var d := dist(probe, stored);
      assert db[IndexOf(db, identity)] == Entry(identity, stored);
      Ok(Decision(d, IsMatch(d)))
  }

  /** `verify`: the query image is selected first, so a folder without an
      image raises `FileNotFoundError` whatever the identity; otherwise the
      encoded query is compared with the claimed identity's entry. */
  function Verify(identity: string, db: Database, listing: seq<FileStat>, encode: string -> Embedding,
                  dist: (Embedding, Embedding) -> real): (r: Result<Verified>)
    requires UniqueKeys(db)
    ensures (forall j :: 0 <= j < |listing| ==> !IsImageName(listing[j].name)) ==> r == Err(NoImageIn(QueryFolder))
    ensures SelectQuery(listing).Ok? ==>
      match Compare(identity, db, encode(SelectQuery(listing).value), dist)
      case Err(e) => r == Err(e)
      case Ok(d) => r == Ok(Verified(d.distance, d.isMatch, SelectQuery(listing).value))
  {
    match SelectQuery(listing)
    case Err(e) => Err(e)
    case Ok(queryPath) =>
      match Compare(identity, db, encode(queryPath), dist)
      case Err(e) => Err(e)
      case Ok(d) => Ok(Verified(d.distance, d.isMatch, queryPath))
  }

  /** Only the claimed identity's entry matters: two databases that agree
      on it give the same decision. */
  lemma CompareDependsOnClaimedEntryOnly(identity: string, db1: Database, db2: Database,
                                         probe: Embedding, dist: (Embedding, Embedding) -> real)
    requires UniqueKeys(db1) && UniqueKeys(db2)
    requires Lookup(db1, identity) == Lookup(db2, identity)
    ensures Compare(identity, db1, probe, dist) == Compare(identity, db2, probe, dist)
  {
  }

  /** A probe equal to the stored embedding is at distance 0 and therefore
      a match, for any distance that is 0 between equal vectors. */
  lemma IdenticalProbeMatches(identity: string, db: Database, probe: Embedding, dist: (Embedding, Embedding) -> real)
    requires UniqueKeys(db)
    requires Lookup(db, identity) == Some(probe)
    requires dist(probe, probe) == 0.0
    ensures Compare(identity, db, probe, dist) == Ok(Decision(0.0, true))
  {
  }

  /** The match boundary is strict: exactly 0.7 is rejected. */
  lemma MatchBoundary()
    ensures !IsMatch(VerifyThreshold)
  {
  }

  /** The decision is a threshold on the distance: whatever is closer than
      a match is a match, and whatever is farther than a rejection is
      rejected. */
  lemma MatchDownwardClosed(nearer: real, farther: real)
    requires nearer <= farther
    ensures IsMatch(farther) ==> IsMatch(nearer)
    ensures !IsMatch(nearer) ==> !IsMatch(farther)
  {
  }
}
